=== FILE: README.md ===
# Tetris engine core in Dafny

This project models the engine of a small Unity Tetris game: the active piece
(`Piece.cs`) and the board (`Board.cs`). The engine is a sequential state
machine over one integer grid.

The grid is the game's tilemap. It is both the picture and the occupancy store:
a square is occupied exactly when a tile is set there. The active piece is
painted into that same grid. A locked piece is never copied anywhere; its tiles
simply stay where they were painted.

Every operation is a pure function. It takes the grid and the piece (or the
board) and returns the new ones. Time is an integer clock in milliseconds,
passed in by the caller.

Modules:

- `Tetrominoes` holds the shared data types: the integer vector and rectangle,
  the seven kinds and the per-shape data. It also has the wrap-around helper,
  the integer quarter-turn of a cell with the group laws of the rotation, and
  the wall-kick row index.
- `Tilemaps` is the grid as a map from cell to tile. `Paint` and `Erase` are
  the loops behind `Piece.Show` and `Piece.Clear`.
- `Pieces` covers `Piece.cs`:
  - `Initialize`;
  - the legality test `positionIsValid`;
  - `ApplyMovement` and `Move`;
  - the rotation with its wall-kick search (`ApllyRotation`, `TestWallKicks`, `Rotate`);
  - gravity (`DropDown`) and locking (`TryToLockPiece`);
  - the input precedence of one frame.
- `Boards` covers `Board.cs`:
  - the 10 by 20 bounds;
  - `IsLineFull`, `ClearLine` and the downward sweep of `UpdateBoard`;
  - `IsGameOver`;
  - spawning;
  - the per-frame `Update`, including the liveness flag.
- `Rows` reads the grid as a sequence of rows, bottom to top. In that view it
  shows that the sweep keeps the rows that were not full, in their order.

Behaviours of the code that the model keeps as written:

- `Initialize` does not reset the rotation index. The board reuses one piece
  object for every spawn, so a new piece starts from the base cells of its
  shape but with the rotation index the previous piece ended with. Only a
  fresh piece has index 3 (`Boards.Start`).
- Only a successful gravity drop restarts the lock timer. A manual move down
  with S does not.
- Left wins over right. A move down is tried separately in the same frame.
  Q (+1) wins over E (-1).
- `ApplyMovement` stores the candidate position in `nextPosition` even when
  the move fails. A failed move or rotation therefore leaves every field but
  `nextPosition` as it was.
- For I and O, half a cell is subtracted before the turn, the result is
  rounded up, and the half is never added back. With the integer matrix
  `{0, 1, -1, 0}` this gives:
  - `(x, y) -> (y, 1 - x)` for a +1 turn;
  - `(x, y) -> (1 - y, x)` for a -1 turn.
  The other shapes turn about the pivot:
  - `(x, y) -> (y, -x)` for +1;
  - `(x, y) -> (-y, x)` for -1.
  Both families form a group: a turn followed by the opposite turn is the
  identity, and so are four turns in one direction.
- The sweep scans downwards from the row below the top and never looks at a
  row twice. When a row is cleared, the row that moves into its place was
  already scanned, and it was not full then or it would have been cleared
  first. So a single pass leaves no full row whenever the top row was not full
  (`Boards.SweepLeavesNoFullRow`). A full top row is never cleared, but it
  already means game over.

## Model

| member | source | states |
|---|---|---|
| Tetrominoes.Wrap | Assets/Scripts/Piece.cs:113 | The wrapped value lies in [lo, hi) and differs from the input by a multiple of the range's width. |
| Tetrominoes.NextRotationIndex | Assets/Scripts/Piece.cs:113 | The new rotation index is one of the four orientations and is congruent to index + direction modulo 4. |
| Tetrominoes.NextRotationIndexStep | Assets/Scripts/Piece.cs:113 | A quarter turn moves the index by one, from 3 up to 0 and from 0 down to 3. |
| Tetrominoes.RotationIndexFourTurns | Assets/Scripts/Piece.cs:113 | Four turns in one direction bring every orientation back to itself. |
| Tetrominoes.RotationIndexInverse | Assets/Scripts/Piece.cs:111-122 | Turning and then turning back restores the saved rotation index, as the revert on a failed rotation needs. |
| Tetrominoes.RotateCell | Assets/Scripts/Piece.cs:133-152 | The rotation-matrix product with ceiling (I, O) or rounding (others) of one cell equals (y, 1-x) and (1-y, x) for I and O, and (y, -x) and (-y, x) for the other shapes, for a +1 and a -1 turn. |
| Tetrominoes.RotateCells | Assets/Scripts/Piece.cs:127-154 | The loop keeps the array's length and turns each entry on its own: entry i becomes the turn of cell i. Its group laws are RotateCellsInverse and RotateCellsFourTurns. |
| Tetrominoes.RotateCellInverse | Assets/Scripts/Piece.cs:127-154 | One cell turned by d and then by -d is the original cell, for every shape and both directions. |
| Tetrominoes.RotateCellFourTurns | Assets/Scripts/Piece.cs:127-154 | One cell turned four times in the same direction is the original cell. |
| Tetrominoes.RotateCellsInverse | Assets/Scripts/Piece.cs:119-123 | Turning all cells one way and then the other restores the cell array exactly; this is the undo of a failed rotation. |
| Tetrominoes.RotateCellsFourTurns | Assets/Scripts/Piece.cs:131-153 | Four turns of the whole cell array in one direction return it to its original values. |
| Tetrominoes.WallKickIndex | Assets/Scripts/Piece.cs:227-237 | The kick row lies in [0, K) and is congruent modulo K to twice the rotation index, less one for a negative turn. |
| Tetrominoes.WallKickIndexEightRows | Assets/Scripts/Piece.cs:229-236 | With eight kick rows, a positive turn into r uses row 2r and a negative one uses 2r - 1, wrapping to row 7 for r = 0. |
| Tilemaps.Paint | Assets/Scripts/Piece.cs:157-165 | After the loop, every listed cell holds the piece's tile and every other cell is unchanged. |
| Tilemaps.Erase | Assets/Scripts/Piece.cs:168-175 | After the loop, every listed cell is empty and every other cell is unchanged. |
| Pieces.CellsFit | Assets/Scripts/Piece.cs:45-49 | The piece's cell array is either not made yet or already has one entry per cell of the shape; this is the precondition of Initialize and of spawning. |
| Pieces.Initialize | Assets/Scripts/Piece.cs:27-50 | Both positions become the spawn point, the shape's cells are copied, the piece is unlocked, both timers are set to now, and the rotation index is not reset. |
| Pieces.FitsIffErased | Assets/Scripts/Piece.cs:88-90 | Testing a placement after clearing the piece's own cells is the same as testing it with those cells counted as free. |
| Pieces.ValidFrom | Assets/Scripts/Piece.cs:201-208 | The early-exit loop returns true exactly when every remaining cell at nextPosition is inside the bounds and unoccupied. |
| Pieces.PositionIsValid | Assets/Scripts/Piece.cs:199-209 | True exactly when every cell at nextPosition lies in [xMin, xMax) x [yMin, yMax) and has no tile. |
| Pieces.ApplyMovement | Assets/Scripts/Piece.cs:98-107 | nextPosition always becomes the target. The piece moves there exactly when the target is legal. No other field changes. |
| Pieces.Move | Assets/Scripts/Piece.cs:85-95 | Succeeds iff every translated cell is in bounds and free or part of the piece itself. The position changes only on success. The old footprint is emptied, the new one painted, all other cells kept, and the piece is displayed afterwards. |
| Pieces.MoveFailureKeepsGrid | Assets/Scripts/Piece.cs:85-95 | A failed move of a displayed piece leaves the grid identical to before. |
| Pieces.Show | Assets/Scripts/Piece.cs:157-165 | Every square of the piece's footprint holds its tile afterwards; every other square keeps its tile. |
| Pieces.Clear | Assets/Scripts/Piece.cs:168-175 | Every square of the piece's footprint is empty afterwards; every other square keeps its tile. |
| Pieces.TryKicks | Assets/Scripts/Piece.cs:216-223 | Succeeds iff some kick from index i on is legal, and then takes the first legal one. On failure the position is unchanged. |
| Pieces.TestWallKicks | Assets/Scripts/Piece.cs:212-224 | Succeeds iff some translation of the kick row chosen by GetWallKickIndex is legal for the piece's cells, and then the piece stands at the first legal one; on failure it has not moved. Only the two positions change. |
| Pieces.ApplyRotation | Assets/Scripts/Piece.cs:109-124 | Succeeds iff some kick of the row fits the turned cells; then the index is the wrapped new one, the cells are turned and the piece stands at the first legal kick. On failure the index and position are the old ones, and for a +1 or -1 turn so are the cells. |
| Pieces.Rotate | Assets/Scripts/Piece.cs:76-83 | Succeeds iff some kick of the selected row fits the turned cells. On success it takes the first such kick with the new index and turned cells. On failure the index, the position and (for +-1) the cells are restored. Only the old and new footprints of the grid change. |
| Pieces.RotateFailureKeepsGrid | Assets/Scripts/Piece.cs:109-124 | A failed quarter turn of a displayed piece leaves the grid identical to before. |
| Pieces.DropDown | Assets/Scripts/Piece.cs:178-187 | Before the drop delay nothing changes. After it, nextPosition is one row down, the drop timer becomes now, the piece falls one row exactly when that is legal, the grid is Move's grid, and the lock timer is restarted exactly when it fell. |
| Pieces.TryToLockPiece | Assets/Scripts/Piece.cs:189-196 | Locked afterwards iff already locked or the lock delay has passed; the lock timer restarts exactly then; nothing else changes. |
| Pieces.Sideways | Assets/Scripts/Piece.cs:57-61 | A press of A gives exactly the result of Move left, D without A exactly that of Move right, and no press leaves piece and grid as they were. The piece moves one column left exactly when A was pressed and that column is free for it, one column right exactly when D but not A was pressed and that column is free, and not at all otherwise; only squares on the old and new footprints can change. |
| Pieces.HandleMoveInput | Assets/Scripts/Piece.cs:54-66 | The result is exactly the sideways step followed, when S was pressed, by Move down from where that step left the piece. So the piece moves one column left exactly when A was pressed and the target is free, one column right exactly when D but not A was pressed and the target is free, and one row down exactly when S was pressed and the row below the sideways result is free. Vacated squares are emptied and only squares on the three footprints change; timers, cells and lock state are untouched. |
| Pieces.LeftWinsOverRight | Assets/Scripts/Piece.cs:57-61 | Pressing A and D in the same frame has the same effect as pressing A alone. |
| Pieces.HandleRotateInput | Assets/Scripts/Piece.cs:68-74 | A press of Q gives exactly the result of a +1 rotation, a press of E without Q exactly that of a -1 rotation, and no press leaves piece and grid as they were. The timers and the lock state are untouched. |
| Pieces.PositiveTurnWins | Assets/Scripts/Piece.cs:70-73 | Pressing Q and E in the same frame has the same effect as pressing Q alone. |
| Boards.PlayfieldBounds | Assets/Scripts/Board.cs:17-24 | The rectangle has the board's width and height, and for even sizes its corner is minus its far edge, so it is centred on the origin. |
| Boards.BoundsValues | Assets/Scripts/Board.cs:14-24 | The playfield spans columns -5 to 5 and rows -10 to 10, half-open: exactly 10 columns and 20 rows. |
| Boards.LineFullFromComplete | Assets/Scripts/Board.cs:125-132 | The early-exit column loop returns true exactly when every remaining column of the row is occupied. |
| Boards.IsLineFull | Assets/Scripts/Board.cs:123-133 | The column loop from xMin; what it computes is stated by IsLineFullComplete. |
| Boards.IsLineFullComplete | Assets/Scripts/Board.cs:123-133 | IsLineFull is true exactly when all ten columns of the row hold a tile. |
| Boards.SameOccupancy | Assets/Scripts/Board.cs:123-133 | Two rows occupied in the same columns are both full or both not. |
| Boards.CopyRowFromCopies | Assets/Scripts/Board.cs:95-101 | Each remaining column of the row takes the tile of the square above it; everything else is unchanged. |
| Boards.ShiftLastRow | Assets/Scripts/Board.cs:93-103 | Copying the row below the top is, on its own, the whole shift from that row. |
| Boards.ShiftStep | Assets/Scripts/Board.cs:93-103 | Copying one row and then shifting from the row above is a shift from that row. |
| Boards.ClearLine | Assets/Scripts/Board.cs:91-104 | The row loop from `row` up to the row below the top; what it computes is stated by ClearLineShifts. |
| Boards.ClearLineShifts | Assets/Scripts/Board.cs:91-104 | Every row from row up to yMax-2 takes the old contents of the row above it. Rows below, the top row and cells outside the columns are unchanged; from the top row up nothing changes. |
| Boards.ShiftedFullness | Assets/Scripts/Board.cs:91-104 | After a shift from row, row y is full exactly when row y+1 was, for y up to yMax-2. |
| Boards.SameRowSameFullness | Assets/Scripts/Board.cs:123-133 | A row whose squares are unchanged keeps its fullness. |
| Boards.ClearLineKeepsNoFullRowAbove | Assets/Scripts/Board.cs:91-104 | Clearing a full row with no full row above it leaves no full row from that row up. |
| Boards.SweepFrom | Assets/Scripts/Board.cs:112-117 | The downward scan from a row; its frame is SweepFromFrame, its result SweepFromLeavesNoFullRow and Rows.SweepFromRows. |
| Boards.Sweep | Assets/Scripts/Board.cs:106-120 | The scan from the row below the top; stated by SweepLeavesNoFullRow, SweepKeepsRowsBelowLowestFull and Rows.SweepRows. |
| Boards.SweepFromFrame | Assets/Scripts/Board.cs:112-117 | The sweep rewrites nothing outside the playfield's columns and the rows below the top. |
| Boards.SweepFromLeavesNoFullRow | Assets/Scripts/Board.cs:112-117 | If no row above the scan position is full, none is full when the scan ends. |
| Boards.SweepLeavesNoFullRow | Assets/Scripts/Board.cs:106-120 | If the top row is not full beforehand, no row of the playfield is full after the sweep. |
| Boards.SweepFromKeepsRowsBelow | Assets/Scripts/Board.cs:112-117 | Rows below a bound under which no row is full come through the scan unchanged. |
| Boards.SweepKeepsRowsBelowLowestFull | Assets/Scripts/Board.cs:106-120 | Every square below the lowest full row is the same after the sweep. |
| Boards.UpdateBoard | Assets/Scripts/Board.cs:106-120 | Nothing changes unless the piece is locked; then the grid becomes exactly the sweep from the row below the top. Only the grid changes, only inside the swept area. With the top row not full, no full row remains afterwards. |
| Boards.TopRowOccupiedFrom | Assets/Scripts/Board.cs:156-164 | The early-exit column loop returns true exactly when some remaining column of the top row is occupied. |
| Boards.IsGameOver | Assets/Scripts/Board.cs:152-167 | True iff some column of row yMax-1 holds a tile. Exactly then the liveness flag is cleared; nothing else changes. |
| Boards.SpawnActivePiece | Assets/Scripts/Board.cs:136-142 | The chosen shape is placed at (-1, 8), with nextPosition there too, unlocked, with its base cells, the board's bounds, both timers at now and the previous rotation index; the grid is untouched. |
| Boards.ShowActivePiece | Assets/Scripts/Board.cs:144-148 | Every square of the piece's footprint holds its tile afterwards and every other square keeps its tile; the piece itself is unchanged. |
| Boards.TryToUpdateBoardAndSpawnPiece | Assets/Scripts/Board.cs:78-89 | An unlocked piece changes nothing. A locked piece over a busy top row only stops the game. Otherwise the grid is swept, and it then has no full row. The new piece is spawned at (-1, 8) with nextPosition there too, within the board's bounds, unlocked, with its shape's base cells, both timers at now and the previous rotation index, and painted. |
| Boards.Start | Assets/Scripts/Board.cs:55-64 | On whatever tilemap the scene starts with, the chosen first piece is spawned at (-1, 8) with its shape's base cells, unlocked, both timers at now and rotation index 3, and displayed; squares off its footprint keep their tiles, the board invariant holds and the game is live. |
| Boards.Update | Assets/Scripts/Board.cs:66-76 | A live frame is exactly move input, rotate input, gravity and the lock check in that order, followed by the board update and spawn. A frame that ends the game does so only with a locked piece and an occupied top row; a finished game does not change, and no frame revives one. Every frame keeps the board invariant: a valid, displayed piece with an index in [0, 4). |
| Rows.IsLineFullIsFull | Assets/Scripts/Board.cs:123-133 | The row test agrees with fullness of the row read as a sequence of ten squares. |
| Rows.KeepOpenMembers | Assets/Scripts/Board.cs:112-116 | The rows the sweep keeps are exactly the rows of the input that are not full. |
| Rows.KeepOpenAppend | Assets/Scripts/Board.cs:112-116 | Keeping the open rows of two stretches in turn is keeping the open rows of both together. |
| Rows.ShiftedRows | Assets/Scripts/Board.cs:91-104 | In the row sequence, clearing row j removes the j-th row and repeats the top row at the end. |
| Rows.SweepFromRows | Assets/Scripts/Board.cs:112-117 | After scanning k rows, those rows have become their non-full members in order, followed by the unscanned rows and by copies of the top row. |
| Rows.SweepRowStep | Assets/Scripts/Board.cs:112-116 | Sweeping the lowest j rows after row j has been handled (cleared when full) gives the same rows as sweeping the lowest j + 1 rows before. |
| Rows.SweepRows | Assets/Scripts/Board.cs:110-117 | The swept rows are the non-full rows below the top, in order, padded with copies of the top row. |
| Rows.SweepKeepsOpenRowsInOrder | Assets/Scripts/Board.cs:106-120 | With an empty top row (no game over), the swept rows read bottom to top are the old non-full rows in their original order, padded with empty rows. |

## Left out

- Rendering: tiles are opaque markers (`Tile(id)`) and the tilemap is only an occupancy map. The z component of the engine's 3D cell positions is always 0 and is dropped.
- Keyboard polling is replaced by an `Input` record of the keys pressed in the frame.
- `Time.time` is replaced by an integer millisecond clock passed to each call. The 0.4 s and 0.5 s delays become 400 and 500. Float comparison of elapsed time is not modelled.
- The random shape choice of `SpawnActivePiece` is a `choice` parameter.
- The geometry table (`DataUtil`) is not part of this model. Shapes and kick tables are parameters. `Wrap` is defined by the contract the engine relies on: the result lies in [lo, hi) and is congruent to the input modulo hi - lo. The rotation matrix is the exact integer matrix `{0, 1, -1, 0}` rather than its float cosine and sine.
- `TetrominoData.Initialize` is a lookup into that table and is left out.
- The `Awake` lifecycle step is left out. `Boards.Start` stands for the first spawn.
- Board's `lockDelay`, `stepDelay` and `gameTime` fields are never read and are left out.
- Kick rows are sequences and may differ in length. In the source they are the rows of one rectangular array; the model's contracts hold either way.
- Pieces.Rotate: the promise that the cells are restored after a failed rotation is stated only for directions +1 and -1. Those are the only directions the engine passes. For other directions the scaled matrix is not its own inverse.
- Pieces.Rotate, Pieces.Move: a failed call leaves every field except `nextPosition` as it was. `ApplyMovement` writes the candidate position there before testing it, so the failed target stays stored.

=== FILE: boards.dfy ===
/**
 The board (Board.cs): the fixed 10 by 20 playfield centred on the origin,
 the full-row test, the row shift and the downward line-clear sweep,
 game-over detection on the top row, spawning, and the per-frame update.
 The shape chosen at random on each spawn and the frame time are parameters.
 */
module Boards {
  import opened Tetrominoes
  import opened Tilemaps
  import opened Pieces

  /** Columns and rows of the playfield. */
  const BoardSize := Vec(10, 20)

  /** Where every new piece appears. */
  const SpawnPosition := Vec(-1, 8)

  /**
   The rectangle of a playfield of the given size: its corner is minus half
   the size, so a playfield of even width and height is centred on the origin.
   */
  function PlayfieldBounds(size: Vec): (r: Rect)
    requires size.x >= 0 && size.y >= 0
    ensures r.width == size.x && r.height == size.y
    ensures size.x % 2 == 0 ==> r.xMin == -r.xMax()
    ensures size.y % 2 == 0 ==> r.yMin == -r.yMax()
  {
    Rect(-(size.x / 2), -(size.y / 2), size.x, size.y)
  }

  /** The playfield rectangle, as Board.Bounds computes it for BoardSize. */
  const Bounds: Rect := Rect(-(BoardSize.x / 2), -(BoardSize.y / 2), BoardSize.x, BoardSize.y)

  /** The playfield spans columns -5 to 4 and rows -10 to 9, centred on the origin. */
  lemma BoundsValues()
    ensures Bounds == PlayfieldBounds(BoardSize)
    ensures Bounds.xMin == -5 && Bounds.xMax() == 5 && Bounds.yMin == -10 && Bounds.yMax() == 10
  {
  }

  /** The row reserved for game-over detection. */
  const TopRow: int := Bounds.yMax() - 1

  datatype Board = Board(tetrominoes: seq<ShapeData>, grid: Grid, activePiece: Piece, gameIsLiving: bool)

  /** The result of the game-over test: the verdict, and the board with its liveness updated. */
  datatype Verdict = Verdict(over: bool, board: Board)

  /** The shape table the board draws from: non-empty, every shape valid. */
  predicate Configured(tetrominoes: seq<ShapeData>) {
    |tetrominoes| > 0 && forall s :: s in tetrominoes ==> ValidShape(s)
  }

  /**
   What holds of the board between frames: its shapes are valid, the active
   piece was built from a valid shape for this playfield, its rotation index
   is one of the four orientations, and the grid displays it.
   */
  predicate Invariant(b: Board) {
    && Configured(b.tetrominoes)
    && WellFormed(b.activePiece)
    && b.activePiece.bounds == Bounds
    && 0 <= b.activePiece.rotationIndex < 4
    && Shown(b.grid, b.activePiece)
  }

  /** Every column of `row` holds a tile. */
  predicate RowComplete(g: Grid, row: int) {
    forall col {:trigger HasTile(g, Vec(col, row))} :: Bounds.xMin <= col < Bounds.xMax() ==> HasTile(g, Vec(col, row))
  }

  /** The column loop of Board.IsLineFull from `col`: stops at the first empty cell. */
  function LineFullFrom(g: Grid, row: int, col: int): bool
    requires Bounds.xMin <= col <= Bounds.xMax()
    decreases Bounds.xMax() - col
  {
    if col == Bounds.xMax() then true
    else if !HasTile(g, Vec(col, row)) then false
    else LineFullFrom(g, row, col + 1)
  }

  /** The column loop answers true exactly when every column from `col` rightwards is occupied. */
  lemma {:induction false} LineFullFromComplete(g: Grid, row: int, col: int)
    requires Bounds.xMin <= col <= Bounds.xMax()
    ensures LineFullFrom(g, row, col) <==>
      forall c {:trigger HasTile(g, Vec(c, row))} :: col <= c < Bounds.xMax() ==> HasTile(g, Vec(c, row))
    decreases Bounds.xMax() - col
  {
    if col < Bounds.xMax() {
      LineFullFromComplete(g, row, col + 1);
    }
  }

  /** Board.IsLineFull. */
  function IsLineFull(g: Grid, row: int): bool {
    LineFullFrom(g, row, Bounds.xMin)
  }

  /** Board.IsLineFull is true exactly when every column of the row is occupied. */
  lemma IsLineFullComplete(g: Grid, row: int)
    ensures IsLineFull(g, row) <==> RowComplete(g, row)
  {
    LineFullFromComplete(g, row, Bounds.xMin);
  }

  /** The column loop of Board.ClearLine from `col`: each cell of `row` takes the tile above it. */
  function CopyRowFrom(g: Grid, row: int, col: int): Grid
    requires Bounds.xMin <= col <= Bounds.xMax()
    decreases Bounds.xMax() - col
  {
    if col == Bounds.xMax() then g
    else CopyRowFrom(SetTile(g, Vec(col, row), GetTile(g, Vec(col, row + 1))), row, col + 1)
  }

  /** The column loop copies the row above into `row` from `col` rightwards and leaves every other square alone. */
  lemma {:induction false} CopyRowFromCopies(g: Grid, row: int, col: int)
    requires Bounds.xMin <= col <= Bounds.xMax()
    ensures forall q {:trigger GetTile(CopyRowFrom(g, row, col), q)} :: (GetTile(CopyRowFrom(g, row, col), q) ==
      if q.y == row && col <= q.x < Bounds.xMax() then GetTile(g, Vec(q.x, row + 1)) else GetTile(g, q))
    decreases Bounds.xMax() - col
  {
    if col < Bounds.xMax() {
      var g' := SetTile(g, Vec(col, row), GetTile(g, Vec(col, row + 1)));
      CopyRowFromCopies(g', row, col + 1);
    }
  }

  /**
   `r` is `g` with every row from `row` up to the one below the top replaced
   by the row above it, within the playfield's columns; all else as in `g`.
   */
  ghost predicate Shifted(r: Grid, g: Grid, row: int) {
    forall q {:trigger GetTile(r, q)} :: (GetTile(r, q) ==
      if Bounds.xMin <= q.x < Bounds.xMax() && row <= q.y < TopRow then GetTile(g, Vec(q.x, q.y + 1))
      else GetTile(g, q))
  }

  /** The last pass of the row loop: copying the row below the top shifts from that row. */
  lemma ShiftLastRow(g': Grid, g: Grid, row: int)
    requires row + 1 == TopRow
    requires forall q {:trigger GetTile(g', q)} :: (GetTile(g', q) ==
      if q.y == row && Bounds.xMin <= q.x < Bounds.xMax() then GetTile(g, Vec(q.x, row + 1)) else GetTile(g, q))
    ensures Shifted(g', g, row)
  {
    forall q
      ensures GetTile(g', q) ==
        if Bounds.xMin <= q.x < Bounds.xMax() && row <= q.y < TopRow then GetTile(g, Vec(q.x, q.y + 1))
        else GetTile(g, q)
    {
    }
  }

  /** One pass of the row loop: copying row `row` and then shifting from `row + 1` shifts from `row`. */
  lemma ShiftStep(r: Grid, g': Grid, g: Grid, row: int)
    requires row + 1 < TopRow
    requires forall q {:trigger GetTile(g', q)} :: (GetTile(g', q) ==
      if q.y == row && Bounds.xMin <= q.x < Bounds.xMax() then GetTile(g, Vec(q.x, row + 1)) else GetTile(g, q))
    requires Shifted(r, g', row + 1)
    ensures Shifted(r, g, row)
  {
    forall q
      ensures GetTile(r, q) ==
        if Bounds.xMin <= q.x < Bounds.xMax() && row <= q.y < TopRow then GetTile(g, Vec(q.x, q.y + 1))
        else GetTile(g, q)
    {
      if Bounds.xMin <= q.x < Bounds.xMax() && row < q.y < TopRow {
        assert GetTile(r, q) == GetTile(g', Vec(q.x, q.y + 1));
      } else {
        assert GetTile(r, q) == GetTile(g', q);
      }
    }
  }

  /**
   Board.ClearLine: every row from `row` up to the one below the top takes
   the contents of the row above it, working upwards. The top row, the rows
   below `row` and everything outside the playfield's columns keep their tiles.
   */
  function ClearLine(g: Grid, row: int): Grid
    decreases TopRow - row
  {
    if row < TopRow then ClearLine(CopyRowFrom(g, row, Bounds.xMin), row + 1)
    else g
  }

  /**
   Board.ClearLine shifts every row from `row` up to the one below the top
   down by one, and leaves the grid alone when `row` is the top row or above.
   */
  lemma {:induction false} ClearLineShifts(g: Grid, row: int)
    ensures row < TopRow ==> Shifted(ClearLine(g, row), g, row)
    ensures row >= TopRow ==> ClearLine(g, row) == g
    decreases TopRow - row
  {
    if row < TopRow {
      var g' := CopyRowFrom(g, row, Bounds.xMin);
      CopyRowFromCopies(g, row, Bounds.xMin);
      ClearLineShifts(g', row + 1);
      if row + 1 == TopRow {
        ShiftLastRow(g', g, row);
      } else {
        ShiftStep(ClearLine(g', row + 1), g', g, row);
      }
    }
  }

  /** True of the squares a sweep may rewrite: the playfield's columns, bottom row to the row below the top. */
  predicate InSweptArea(q: Vec) {
    Bounds.xMin <= q.x < Bounds.xMax() && Bounds.yMin <= q.y < TopRow
  }

  /**
   The row loop of Board.UpdateBoard from `row` down to the bottom row: each
   full row is cleared, and the scan moves down one row either way. Squares
   outside the swept area keep their tiles.
   */
  function SweepFrom(g: Grid, row: int): Grid
    decreases row - Bounds.yMin
  {
    if row >= Bounds.yMin then
      SweepFrom(if IsLineFull(g, row) then ClearLine(g, row) else g, row - 1)
    else
      g
  }

  /** The sweep rewrites only squares of the swept area. */
  lemma {:induction false} SweepFromFrame(g: Grid, row: int)
    ensures forall q {:trigger GetTile(SweepFrom(g, row), q)} :: !InSweptArea(q) ==> GetTile(SweepFrom(g, row), q) == GetTile(g, q)
    decreases row - Bounds.yMin
  {
    if row >= Bounds.yMin {
      if IsLineFull(g, row) {
        ClearLineShifts(g, row);
        SweepFromFrame(ClearLine(g, row), row - 1);
      } else {
        SweepFromFrame(g, row - 1);
      }
    }
  }

  /** The full sweep, from the row below the top down to the bottom row. */
  function Sweep(g: Grid): Grid {
    SweepFrom(g, TopRow - 1)
  }

  /** Two rows whose squares are occupied alike are both complete or both not. */
  lemma SameOccupancy(g: Grid, y: int, h: Grid, z: int)
    requires forall col {:trigger HasTile(g, Vec(col, y))} {:trigger HasTile(h, Vec(col, z))} ::
      Bounds.xMin <= col < Bounds.xMax() ==> HasTile(g, Vec(col, y)) == HasTile(h, Vec(col, z))
    ensures IsLineFull(g, y) == IsLineFull(h, z)
  {
    IsLineFullComplete(g, y);
    IsLineFullComplete(h, z);
    if RowComplete(g, y) {
      forall col | Bounds.xMin <= col < Bounds.xMax()
        ensures HasTile(h, Vec(col, z))
      {
        assert HasTile(g, Vec(col, y));
      }
    }
    if RowComplete(h, z) {
      forall col | Bounds.xMin <= col < Bounds.xMax()
        ensures HasTile(g, Vec(col, y))
      {
        assert HasTile(h, Vec(col, z));
      }
    }
  }

  /** Shifting the rows from `row` upwards moves row y + 1 into row y, so fullness moves down with it. */
  lemma ShiftedFullness(r: Grid, g: Grid, row: int, y: int)
    requires Shifted(r, g, row)
    requires row <= y < TopRow
    ensures IsLineFull(r, y) == IsLineFull(g, y + 1)
  {
    forall col | Bounds.xMin <= col < Bounds.xMax()
      ensures HasTile(r, Vec(col, y)) == HasTile(g, Vec(col, y + 1))
    {
      assert GetTile(r, Vec(col, y)) == GetTile(g, Vec(col, y + 1));
    }
    SameOccupancy(r, y, g, y + 1);
  }

  /** Rows whose squares agree have the same fullness. */
  lemma SameRowSameFullness(g: Grid, h: Grid, y: int)
    requires forall col {:trigger GetTile(h, Vec(col, y))} ::
      Bounds.xMin <= col < Bounds.xMax() ==> GetTile(g, Vec(col, y)) == GetTile(h, Vec(col, y))
    ensures IsLineFull(g, y) == IsLineFull(h, y)
  {
    forall col | Bounds.xMin <= col < Bounds.xMax()
      ensures HasTile(g, Vec(col, y)) == HasTile(h, Vec(col, y))
    {
      assert GetTile(g, Vec(col, y)) == GetTile(h, Vec(col, y));
    }
    SameOccupancy(g, y, h, y);
  }

  /** No row above `row`, up to and including the top row, is full. */
  predicate NoFullRowAbove(g: Grid, row: int) {
    forall y :: row < y <= TopRow ==> !IsLineFull(g, y)
  }

  /** No row of the playfield, from the bottom row to the top row, is full. */
  predicate NoFullRow(g: Grid) {
    NoFullRowAbove(g, Bounds.yMin - 1)
  }

  /**
   Clearing a full row with no full row above it leaves no full row from
   that row up: each shifted row is the old row above it, which was not full,
   and the top row is untouched.
   */
  lemma ClearLineKeepsNoFullRowAbove(g: Grid, row: int)
    requires row < TopRow
    requires NoFullRowAbove(g, row)
    ensures NoFullRowAbove(ClearLine(g, row), row - 1)
  {
    var g' := ClearLine(g, row);
    ClearLineShifts(g, row);
    forall y | row - 1 < y <= TopRow
      ensures !IsLineFull(g', y)
    {
      if y < TopRow {
        ShiftedFullness(g', g, row, y);
      } else {
        SameRowSameFullness(g, g', y);
      }
    }
  }

  /**
   The sweep's loop invariant: if no row above `row` is full when the scan
   reaches `row`, then no row of the playfield is full when it ends.
   */
  lemma {:induction false} SweepFromLeavesNoFullRow(g: Grid, row: int)
    requires row < TopRow
    requires NoFullRowAbove(g, row)
    ensures NoFullRowAbove(SweepFrom(g, row), Bounds.yMin - 1)
    decreases row - Bounds.yMin
  {
    if row >= Bounds.yMin {
      if IsLineFull(g, row) {
        ClearLineKeepsNoFullRowAbove(g, row);
        SweepFromLeavesNoFullRow(ClearLine(g, row), row - 1);
        assert SweepFrom(g, row) == SweepFrom(ClearLine(g, row), row - 1);
      } else {
        SweepFromLeavesNoFullRow(g, row - 1);
        assert SweepFrom(g, row) == SweepFrom(g, row - 1);
      }
    }
  }

  /** After a sweep no row is full, provided the top row was not full to begin with. */
  lemma SweepLeavesNoFullRow(g: Grid)
    requires !IsLineFull(g, TopRow)
    ensures NoFullRow(Sweep(g))
  {
    SweepFromLeavesNoFullRow(g, TopRow - 1);
  }

  /**
   The rows below `lo` are left alone by the sweep when none of them is full:
   clearing a row only ever rewrites that row and the rows above it.
   */
  lemma {:induction false} SweepFromKeepsRowsBelow(g: Grid, row: int, lo: int)
    requires lo <= TopRow
    requires forall y :: Bounds.yMin <= y < lo ==> !IsLineFull(g, y)
    ensures forall q: Vec {:trigger GetTile(SweepFrom(g, row), q)} :: q.y < lo ==> GetTile(SweepFrom(g, row), q) == GetTile(g, q)
    decreases row - Bounds.yMin
  {
    if row >= Bounds.yMin {
      var g' := if IsLineFull(g, row) then ClearLine(g, row) else g;
      assert forall q: Vec {:trigger GetTile(g', q)} :: q.y < lo ==> GetTile(g', q) == GetTile(g, q) by {
        if IsLineFull(g, row) {
          ClearLineShifts(g, row);
          assert row >= lo;
        }
      }
      forall y | Bounds.yMin <= y < lo
        ensures !IsLineFull(g', y)
      {
        SameRowSameFullness(g, g', y);
      }
      SweepFromKeepsRowsBelow(g', row - 1, lo);
    }
  }

  /** The rows below the lowest full row come through the sweep unchanged. */
  lemma SweepKeepsRowsBelowLowestFull(g: Grid, lo: int)
    requires lo <= TopRow
    requires forall y :: Bounds.yMin <= y < lo ==> !IsLineFull(g, y)
    ensures forall q: Vec {:trigger GetTile(Sweep(g), q)} :: q.y < lo ==> GetTile(Sweep(g), q) == GetTile(g, q)
  {
    SweepFromKeepsRowsBelow(g, TopRow - 1, lo);
  }

  /**
   Board.UpdateBoard: sweeps the grid when the active piece is locked, and
   does nothing otherwise. Only the grid changes; the top row and everything
   outside the playfield keep their tiles, and when the top row was not full
   no row of the playfield is full afterwards.
   */
  function UpdateBoard(b: Board): (r: Board)
    ensures !b.activePiece.isLocked ==> r == b
    ensures r == b.(grid := r.grid)
    ensures forall q {:trigger GetTile(r.grid, q)} :: !InSweptArea(q) ==> GetTile(r.grid, q) == GetTile(b.grid, q)
    ensures b.activePiece.isLocked ==> r.grid == Sweep(b.grid)
    ensures b.activePiece.isLocked && !IsLineFull(b.grid, TopRow) ==> NoFullRow(r.grid)
  {
    if b.activePiece.isLocked then
      var swept := Sweep(b.grid);
      SweepFromFrame(b.grid, TopRow - 1);
      assert !IsLineFull(b.grid, TopRow) ==> NoFullRow(swept) by {
        if !IsLineFull(b.grid, TopRow) {
          SweepLeavesNoFullRow(b.grid);
        }
      }
      b.(grid := swept)
    else b
  }

  /** Some column of the top row holds a tile. */
  predicate TopRowOccupied(g: Grid) {
    exists col {:trigger HasTile(g, Vec(col, TopRow))} :: Bounds.xMin <= col < Bounds.xMax() && HasTile(g, Vec(col, TopRow))
  }

  /** The column loop of Board.IsGameOver from `col`. */
  function TopRowOccupiedFrom(g: Grid, col: int): (r: bool)
    requires Bounds.xMin <= col <= Bounds.xMax()
    ensures r <==> exists c {:trigger HasTile(g, Vec(c, TopRow))} :: col <= c < Bounds.xMax() && HasTile(g, Vec(c, TopRow))
    decreases Bounds.xMax() - col
  {
    if col == Bounds.xMax() then false
    else if HasTile(g, Vec(col, TopRow)) then true
    else TopRowOccupiedFrom(g, col + 1)
  }

  /**
   Board.IsGameOver: true exactly when some column of the top row is
   occupied, and exactly then the game stops living.
   */
  function IsGameOver(b: Board): (r: Verdict)
    ensures r.over <==> TopRowOccupied(b.grid)
    ensures r.board.gameIsLiving == (b.gameIsLiving && !r.over)
    ensures r.board == b.(gameIsLiving := r.board.gameIsLiving)
  {
    if TopRowOccupiedFrom(b.grid, Bounds.xMin) then Verdict(true, b.(gameIsLiving := false))
    else Verdict(false, b)
  }

  /**
   Board.SpawnActivePiece with the random pick given as `choice`: the one
   piece object is re-initialised with that shape at the spawn position. Its
   rotation index carries over from the previous piece.
   */
  function SpawnActivePiece(b: Board, choice: nat, now: int): (r: Board)
    requires choice < |b.tetrominoes|
    requires CellsFit(b.activePiece, b.tetrominoes[choice])
    ensures r.activePiece.currentPosition == SpawnPosition && r.activePiece.nextPosition == SpawnPosition
    ensures !r.activePiece.isLocked
    ensures r.activePiece.shape == b.tetrominoes[choice] && r.activePiece.cells == b.tetrominoes[choice].cells
    ensures r.activePiece.rotationIndex == b.activePiece.rotationIndex
    ensures r.activePiece.bounds == Bounds
    ensures r.activePiece.dropGameTime == now && r.activePiece.lockGameTime == now
    ensures r.grid == b.grid && r.tetrominoes == b.tetrominoes && r.gameIsLiving == b.gameIsLiving
  {
    b.(activePiece := Initialize(b.activePiece, Bounds, SpawnPosition, b.tetrominoes[choice], now))
  }

  /** Board.ShowActivePiece: the active piece's tile on its footprint, every other square as it was. */
  function ShowActivePiece(b: Board): (r: Board)
    ensures Shown(r.grid, r.activePiece)
    ensures forall q {:trigger GetTile(r.grid, q)} ::
      GetTile(r.grid, q) == if q in Footprint(b.activePiece) then Some(b.activePiece.shape.tile) else GetTile(b.grid, q)
    ensures r.activePiece == b.activePiece && r.tetrominoes == b.tetrominoes && r.gameIsLiving == b.gameIsLiving
  {
    b.(grid := Show(b.grid, b.activePiece))
  }

  /**
   Board.TryToUpdateBoardAndSpawnPiece. Nothing happens to an unlocked piece.
   For a locked one: on game over the grid and the piece stay as they are and
   the game stops; otherwise the grid is swept and the next piece is placed
   at the spawn position, unlocked, and displayed.
   */
  function TryToUpdateBoardAndSpawnPiece(b: Board, choice: nat, now: int): (r: Board)
    requires choice < |b.tetrominoes|
    requires CellsFit(b.activePiece, b.tetrominoes[choice])
    ensures !b.activePiece.isLocked ==> r == b
    ensures b.activePiece.isLocked && TopRowOccupied(b.grid) ==> r == b.(gameIsLiving := false)
    ensures b.activePiece.isLocked && !TopRowOccupied(b.grid) ==>
      && r.activePiece.currentPosition == SpawnPosition
      && r.activePiece.nextPosition == SpawnPosition
      && r.activePiece.bounds == Bounds
      && !r.activePiece.isLocked
      && r.activePiece.shape == b.tetrominoes[choice]
      && r.activePiece.rotationIndex == b.activePiece.rotationIndex
      && r.activePiece.cells == b.tetrominoes[choice].cells
      && r.activePiece.dropGameTime == now && r.activePiece.lockGameTime == now
      && r.grid == Show(Sweep(b.grid), r.activePiece)
      && r.gameIsLiving == b.gameIsLiving
    ensures b.activePiece.isLocked && !TopRowOccupied(b.grid) ==> NoFullRow(Sweep(b.grid))
    ensures r.tetrominoes == b.tetrominoes
  {
    if b.activePiece.isLocked then
      var v := IsGameOver(b);
      if !v.over then
        assert NoFullRow(Sweep(b.grid)) by {
          IsLineFullComplete(b.grid, TopRow);
          SweepLeavesNoFullRow(b.grid);
        }
        ShowActivePiece(SpawnActivePiece(UpdateBoard(v.board), choice, now))
      else v.board
    else b
  }

  /**
   Board.Start: the first piece, spawned on the tilemap as the scene left it
   and displayed there; squares off the piece keep their tiles.
   */
  function Start(tetrominoes: seq<ShapeData>, g0: Grid, choice: nat, now: int): (r: Board)
    requires Configured(tetrominoes)
    requires choice < |tetrominoes|
    ensures Invariant(r) && r.gameIsLiving
    ensures r.activePiece.rotationIndex == InitialRotationIndex
    ensures r.activePiece.currentPosition == SpawnPosition
    ensures r.activePiece.shape == tetrominoes[choice] && r.activePiece.cells == tetrominoes[choice].cells
    ensures !r.activePiece.isLocked && r.activePiece.dropGameTime == now && r.activePiece.lockGameTime == now
    ensures forall q {:trigger GetTile(r.grid, q)} :: q !in Footprint(r.activePiece) ==> GetTile(r.grid, q) == GetTile(g0, q)
  {
    var b := Board(tetrominoes, g0, Unspawned, true);
    assert tetrominoes[choice] in tetrominoes;
    ShowActivePiece(SpawnActivePiece(b, choice, now))
  }

  /**
   Board.Update, one frame: while the game lives, move input, rotate input,
   gravity, the lock check and then the board update run in that order; once
   the game is over a frame changes nothing, and nothing revives it.
   */
  function Update(b: Board, input: Input, now: int, choice: nat): (r: Board)
    requires Invariant(b)
    requires choice < |b.tetrominoes|
    ensures !b.gameIsLiving ==> r == b
    ensures r.gameIsLiving ==> b.gameIsLiving
    ensures Invariant(r)
    ensures b.gameIsLiving ==>
      var s1 := HandleMoveInput(b.grid, b.activePiece, input);
      var s2 := HandleRotateInput(s1.grid, s1.piece, input);
      var s3 := DropDown(s2.grid, s2.piece, now);
      var locked := TryToLockPiece(s3.piece, now);
      r == TryToUpdateBoardAndSpawnPiece(b.(grid := s3.grid, activePiece := locked), choice, now)
    ensures b.gameIsLiving && !r.gameIsLiving ==> r.activePiece.isLocked && TopRowOccupied(r.grid)
  {
    if b.gameIsLiving then
      var s1 := HandleMoveInput(b.grid, b.activePiece, input);
      var s2 := HandleRotateInput(s1.grid, s1.piece, input);
      var s3 := DropDown(s2.grid, s2.piece, now);
      var locked := TryToLockPiece(s3.piece, now);
      assert Footprint(locked) == Footprint(s3.piece);
      assert b.tetrominoes[choice] in b.tetrominoes;
      TryToUpdateBoardAndSpawnPiece(b.(grid := s3.grid, activePiece := locked), choice, now)
    else
      b
  }
}

=== FILE: pieces.dfy ===
/**
 The active piece (Piece.cs): its state, and the move, rotate, gravity and
 lock operations. Every operation takes the tilemap and returns the new piece
 together with the new tilemap; Move and Rotate clear the piece's own tiles,
 test the new placement against what is left, and paint the piece again.
 */
module Pieces {
  import opened Tetrominoes
  import opened Tilemaps

  /** Time between two gravity steps, in milliseconds (0.4 s). */
  const DropDelay := 400
  /** Time a piece may rest before it locks, in milliseconds (0.5 s). */
  const LockDelay := 500
  /** The rotation index of a newly constructed piece. */
  const InitialRotationIndex := 3

  datatype Piece = Piece(
    shape: ShapeData,
    cells: seq<Vec>,
    nextPosition: Vec,
    currentPosition: Vec,
    bounds: Rect,
    rotationIndex: int,
    isLocked: bool,
    dropGameTime: int,
    lockGameTime: int)

  /** The result of a placement test on the piece alone: whether it took effect, and the piece after it. */
  datatype Attempt = Attempt(ok: bool, piece: Piece)

  /** The result of an operation that reports whether it took effect. */
  datatype Moved = Moved(ok: bool, piece: Piece, grid: Grid)

  /** The result of an operation that reports nothing. */
  datatype Step = Step(piece: Piece, grid: Grid)

  /** The per-piece cell array has one entry per cell of the shape, as Initialize makes it. */
  predicate Sized(p: Piece) {
    |p.cells| == |p.shape.cells|
  }

  /** A piece built from a valid shape. */
  predicate WellFormed(p: Piece) {
    ValidShape(p.shape) && Sized(p)
  }

  /** A freshly constructed piece: every field at its default, rotation index 3, no cell array yet. */
  const Unspawned := Piece(ShapeData(Tile(0), I, [], []), [], Vec(0, 0), Vec(0, 0), Rect(0, 0, 0, 0),
                           InitialRotationIndex, false, 0, 0)

  /** The piece's cell array can take the shape's cells: not made yet, or of the same size. */
  predicate CellsFit(p: Piece, data: ShapeData) {
    |p.cells| == 0 || |p.cells| == |data.cells|
  }

  /**
   Piece.Initialize: places the piece at `spawn` with the shape's cells,
   unlocked, both timers at `now`. The cell array is reused when it exists,
   so it must already have one entry per cell of the new shape. The rotation
   index is left as it was.
   */
  function Initialize(p: Piece, bounds: Rect, spawn: Vec, data: ShapeData, now: int): (r: Piece)
    requires CellsFit(p, data)
    ensures r.currentPosition == spawn && r.nextPosition == spawn
    ensures r.cells == data.cells && r.shape == data && r.bounds == bounds
    ensures !r.isLocked && r.dropGameTime == now && r.lockGameTime == now
    ensures r.rotationIndex == p.rotationIndex
    ensures ValidShape(data) ==> WellFormed(r)
  {
    Piece(data, data.cells, spawn, spawn, bounds, p.rotationIndex, false, now, now)
  }

  /** The grid cells the piece covers: its position plus each cell offset. */
  function Footprint(p: Piece): (r: seq<Vec>)
    ensures |r| == |p.cells|
    ensures forall i :: 0 <= i < |p.cells| ==> r[i] == p.currentPosition.Plus(p.cells[i])
  {
    seq(|p.cells|, i requires 0 <= i < |p.cells| => p.currentPosition.Plus(p.cells[i]))
  }

  /** Piece.Show: paints the piece's tile on its footprint and leaves every other square alone. */
  function Show(g: Grid, p: Piece): (r: Grid)
    ensures forall q {:trigger GetTile(r, q)} :: GetTile(r, q) == if q in Footprint(p) then Some(p.shape.tile) else GetTile(g, q)
  {
    Paint(g, Footprint(p), p.shape.tile)
  }

  /** Piece.Clear: removes the tiles on the piece's footprint and leaves every other square alone. */
  function Clear(g: Grid, p: Piece): (r: Grid)
    ensures forall q {:trigger GetTile(r, q)} :: GetTile(r, q) == if q in Footprint(p) then None else GetTile(g, q)
  {
    Erase(g, Footprint(p))
  }

  /** The grid displays the piece: its tile sits on every cell of its footprint. */
  predicate Shown(g: Grid, p: Piece) {
    forall c :: c in Footprint(p) ==> GetTile(g, c) == Some(p.shape.tile)
  }

  /**
   `r` is `g` with the squares of `before` cleared and then those of `after`
   painted with `t`; every other square is as in `g`.
   */
  ghost predicate Repainted(r: Grid, g: Grid, before: seq<Vec>, after: seq<Vec>, t: Tile) {
    forall q :: GetTile(r, q) == (if q in after then Some(t) else if q in before then None else GetTile(g, q))
  }

  /** Every cell of `cells` placed at `pos` lies inside `bounds` on an empty square. */
  predicate CanOccupy(g: Grid, bounds: Rect, pos: Vec, cells: seq<Vec>) {
    forall i :: 0 <= i < |cells| ==> bounds.Contains(pos.Plus(cells[i])) && !HasTile(g, pos.Plus(cells[i]))
  }

  /**
   Every cell of `cells` placed at `pos` lies inside `bounds` on a square that
   is empty or belongs to `own`: the legality test once the squares in `own`
   have been cleared.
   */
  predicate Fits(g: Grid, own: seq<Vec>, bounds: Rect, pos: Vec, cells: seq<Vec>) {
    forall i :: 0 <= i < |cells| ==>
      bounds.Contains(pos.Plus(cells[i])) && (!HasTile(g, pos.Plus(cells[i])) || pos.Plus(cells[i]) in own)
  }

  /** Testing against the grid with `own` erased is testing with `own` counted as free. */
  lemma FitsIffErased(g: Grid, own: seq<Vec>, bounds: Rect)
    ensures forall pos, cells :: Fits(g, own, bounds, pos, cells) <==> CanOccupy(Erase(g, own), bounds, pos, cells)
  {
  }

  /** The candidate placement `p.nextPosition` is legal from cell `i` of the shape onwards. */
  function ValidFrom(g: Grid, p: Piece, i: nat): (r: bool)
    requires Sized(p)
    requires i <= |p.shape.cells|
    ensures r <==> forall j :: i <= j < |p.cells| ==>
      p.bounds.Contains(p.nextPosition.Plus(p.cells[j])) && !HasTile(g, p.nextPosition.Plus(p.cells[j]))
    decreases |p.shape.cells| - i
  {
    if i == |p.shape.cells| then true
    else
      var cell := p.nextPosition.Plus(p.cells[i]);
      if !p.bounds.Contains(cell) || HasTile(g, cell) then false
      else ValidFrom(g, p, i + 1)
  }

  /** Piece.positionIsValid: the cells at `nextPosition` are inside the bounds and unoccupied. */
  function PositionIsValid(g: Grid, p: Piece): (r: bool)
    requires Sized(p)
    ensures r <==> CanOccupy(g, p.bounds, p.nextPosition, p.cells)
  {
    ValidFrom(g, p, 0)
  }

  /**
   Piece.ApplyMovement: sets `nextPosition` to the translated position and,
   when that position is legal, moves the piece there.
   */
  function ApplyMovement(g: Grid, p: Piece, translation: Vec): (r: Attempt)
    requires Sized(p)
    ensures r.ok <==> CanOccupy(g, p.bounds, p.currentPosition.Plus(translation), p.cells)
    ensures r.piece.currentPosition == if r.ok then p.currentPosition.Plus(translation) else p.currentPosition
    ensures r.piece == p.(nextPosition := p.currentPosition.Plus(translation), currentPosition := r.piece.currentPosition)
  {
    var p' := p.(nextPosition := p.currentPosition.Plus(translation));
    if PositionIsValid(g, p') then Attempt(true, p'.(currentPosition := p'.nextPosition))
    else Attempt(false, p')
  }

  /**
   Piece.Move: clears the piece, tries the translation, paints the piece
   again. It succeeds exactly when every translated cell is inside the bounds
   and free or part of the piece itself; only the old and new footprints of
   the grid change.
   */
  function Move(g: Grid, p: Piece, translation: Vec): (r: Moved)
    requires Sized(p)
    ensures r.ok <==> Fits(g, Footprint(p), p.bounds, p.currentPosition.Plus(translation), p.cells)
    ensures r.piece.currentPosition == if r.ok then p.currentPosition.Plus(translation) else p.currentPosition
    ensures r.piece == p.(nextPosition := p.currentPosition.Plus(translation), currentPosition := r.piece.currentPosition)
    ensures Repainted(r.grid, g, Footprint(p), Footprint(r.piece), p.shape.tile)
    ensures Shown(r.grid, r.piece)
  {
    var cleared := Clear(g, p);
    FitsIffErased(g, Footprint(p), p.bounds);
    var a := ApplyMovement(cleared, p, translation);
    Moved(a.ok, a.piece, Show(cleared, a.piece))
  }

  /** A move that fails leaves a displayed piece's grid exactly as it was. */
  lemma MoveFailureKeepsGrid(g: Grid, p: Piece, translation: Vec)
    requires Sized(p)
    requires Shown(g, p)
    requires !Move(g, p, translation).ok
    ensures Move(g, p, translation).grid == g
  {
    var r := Move(g, p, translation);
    assert Footprint(r.piece) == Footprint(p);
    GridExtensionality(r.grid, g);
  }

  /** `j` is the first index from `lo` on whose kick places `cells` legally. */
  predicate FirstFit(g: Grid, bounds: Rect, pos: Vec, cells: seq<Vec>, kicks: seq<Vec>, lo: int, j: int) {
    && 0 <= lo <= j < |kicks|
    && CanOccupy(g, bounds, pos.Plus(kicks[j]), cells)
    && forall k :: lo <= k < j ==> !CanOccupy(g, bounds, pos.Plus(kicks[k]), cells)
  }

  /** A first fit from `lo + 1` is a first fit from `lo` when the kick at `lo` does not fit. */
  lemma FirstFitFrom(g: Grid, bounds: Rect, pos: Vec, cells: seq<Vec>, kicks: seq<Vec>, lo: int)
    requires 0 <= lo < |kicks|
    requires !CanOccupy(g, bounds, pos.Plus(kicks[lo]), cells)
    ensures forall j :: FirstFit(g, bounds, pos, cells, kicks, lo + 1, j) ==> FirstFit(g, bounds, pos, cells, kicks, lo, j)
  {
  }

  /** The loop of Piece.TestWallKicks from index `i`: tries each translation in order and keeps the first legal one. */
  function TryKicks(g: Grid, p: Piece, kicks: seq<Vec>, i: nat): (r: Attempt)
    requires Sized(p)
    requires i <= |kicks|
    ensures r.ok <==> exists j :: i <= j < |kicks| && CanOccupy(g, p.bounds, p.currentPosition.Plus(kicks[j]), p.cells)
    ensures r.ok ==> exists j :: FirstFit(g, p.bounds, p.currentPosition, p.cells, kicks, i, j)
                                && r.piece.currentPosition == p.currentPosition.Plus(kicks[j])
    ensures !r.ok ==> r.piece.currentPosition == p.currentPosition
    ensures r.piece == p.(nextPosition := r.piece.nextPosition, currentPosition := r.piece.currentPosition)
    decreases |kicks| - i
  {
    if i == |kicks| then Attempt(false, p)
    else
      var a := ApplyMovement(g, p, kicks[i]);
      if a.ok then
        assert FirstFit(g, p.bounds, p.currentPosition, p.cells, kicks, i, i);
        a
      else
        assert a.piece.currentPosition == p.currentPosition && a.piece.cells == p.cells && a.piece.bounds == p.bounds;
        var rest := TryKicks(g, a.piece, kicks, i + 1);
        FirstFitFrom(g, p.bounds, p.currentPosition, p.cells, kicks, i);
        rest
  }

  /** The kick row consulted when turning `p` by `direction`. */
  function KickRow(p: Piece, direction: int): seq<Vec>
    requires ValidShape(p.shape)
  {
    var index := NextRotationIndex(p.rotationIndex, direction);
    p.shape.wallKicks[WallKickIndex(index, direction, |p.shape.wallKicks|)]
  }

  /**
   Piece.TestWallKicks: the kick row for the new orientation, tried in order.
   It succeeds exactly when some translation of the row is legal, and then
   the piece stands at the first legal one; otherwise it has not moved.
   */
  function TestWallKicks(g: Grid, p: Piece, rotationIndex: int, direction: int): (r: Attempt)
    requires WellFormed(p)
    ensures var kicks := p.shape.wallKicks[WallKickIndex(rotationIndex, direction, |p.shape.wallKicks|)];
            && (r.ok <==> exists j :: 0 <= j < |kicks| && CanOccupy(g, p.bounds, p.currentPosition.Plus(kicks[j]), p.cells))
            && (r.ok ==> exists j :: FirstFit(g, p.bounds, p.currentPosition, p.cells, kicks, 0, j)
                                    && r.piece.currentPosition == p.currentPosition.Plus(kicks[j]))
    ensures !r.ok ==> r.piece.currentPosition == p.currentPosition
    ensures r.piece == p.(nextPosition := r.piece.nextPosition, currentPosition := r.piece.currentPosition)
  {
    var index := WallKickIndex(rotationIndex, direction, |p.shape.wallKicks|);
    TryKicks(g, p, p.shape.wallKicks[index], 0)
  }

  /**
   Piece.ApllyRotation: advances the rotation index, turns the cells, and
   looks for a legal kick; without one, the index is restored and the cells
   are turned back. On success the piece has the new index and the turned
   cells and stands at the first legal kick; on failure the index and the
   position are the old ones, and so are the cells after a quarter turn.
   */
  function ApplyRotation(g: Grid, p: Piece, direction: int): (r: Attempt)
    requires WellFormed(p)
    ensures var turned := RotateCells(p.shape.tetromino, direction, p.cells);
            var kicks := KickRow(p, direction);
            && (r.ok <==> exists j :: 0 <= j < |kicks| && CanOccupy(g, p.bounds, p.currentPosition.Plus(kicks[j]), turned))
            && (r.ok ==> && r.piece.rotationIndex == NextRotationIndex(p.rotationIndex, direction)
                         && r.piece.cells == turned
                         && exists j :: FirstFit(g, p.bounds, p.currentPosition, turned, kicks, 0, j)
                                        && r.piece.currentPosition == p.currentPosition.Plus(kicks[j]))
    ensures !r.ok ==> r.piece.rotationIndex == p.rotationIndex && r.piece.currentPosition == p.currentPosition
    ensures !r.ok && (direction == 1 || direction == -1) ==> r.piece.cells == p.cells
    ensures r.piece == p.(nextPosition := r.piece.nextPosition, currentPosition := r.piece.currentPosition,
                          rotationIndex := r.piece.rotationIndex, cells := r.piece.cells)
  {
    var originalRotationIndex := p.rotationIndex;
    var turned := p.(rotationIndex := NextRotationIndex(originalRotationIndex, direction),
                     cells := RotateCells(p.shape.tetromino, direction, p.cells));
    var a := TestWallKicks(g, turned, turned.rotationIndex, direction);
    if a.ok then a
    else
      assert direction == 1 || direction == -1 ==> RotateCells(p.shape.tetromino, -direction, a.piece.cells) == p.cells by {
        if direction == 1 || direction == -1 {
          RotateCellsInverse(p.shape.tetromino, direction, p.cells);
        }
      }
      Attempt(false, a.piece.(rotationIndex := originalRotationIndex,
                              cells := RotateCells(p.shape.tetromino, -direction, a.piece.cells)))
  }

  /**
   Piece.Rotate. With the cells turned by the rotation matrix, the kick
   row's translations are tried in order and the first legal one is taken.
   If none is legal the rotation index, the position and (for a quarter turn)
   the cells are what they were; only the old and new footprints change.
   */
  function Rotate(g: Grid, p: Piece, direction: int): (r: Moved)
    requires WellFormed(p)
    ensures var turned := RotateCells(p.shape.tetromino, direction, p.cells);
            var kicks := KickRow(p, direction);
            && (r.ok <==> exists j :: 0 <= j < |kicks| && Fits(g, Footprint(p), p.bounds, p.currentPosition.Plus(kicks[j]), turned))
            && (r.ok ==> && r.piece.rotationIndex == NextRotationIndex(p.rotationIndex, direction)
                         && r.piece.cells == turned
                         && exists j :: FirstFit(Clear(g, p), p.bounds, p.currentPosition, turned, kicks, 0, j)
                                        && r.piece.currentPosition == p.currentPosition.Plus(kicks[j]))
    ensures !r.ok ==> r.piece.rotationIndex == p.rotationIndex && r.piece.currentPosition == p.currentPosition
    ensures !r.ok && (direction == 1 || direction == -1) ==> r.piece.cells == p.cells
    ensures r.piece.shape == p.shape && r.piece.bounds == p.bounds && r.piece.isLocked == p.isLocked
    ensures r.piece.dropGameTime == p.dropGameTime && r.piece.lockGameTime == p.lockGameTime
    ensures |r.piece.cells| == |p.cells|
    ensures 0 <= p.rotationIndex < 4 ==> 0 <= r.piece.rotationIndex < 4
    ensures Repainted(r.grid, g, Footprint(p), Footprint(r.piece), p.shape.tile)
    ensures Shown(r.grid, r.piece)
  {
    var cleared := Clear(g, p);
    FitsIffErased(g, Footprint(p), p.bounds);
    var a := ApplyRotation(cleared, p, direction);
    Moved(a.ok, a.piece, Show(cleared, a.piece))
  }

  /** A rotation that fails leaves a displayed piece's grid exactly as it was. */
  lemma RotateFailureKeepsGrid(g: Grid, p: Piece, direction: int)
    requires WellFormed(p)
    requires direction == 1 || direction == -1
    requires Shown(g, p)
    requires !Rotate(g, p, direction).ok
    ensures Rotate(g, p, direction).grid == g
  {
    var r := Rotate(g, p, direction);
    assert Footprint(r.piece) == Footprint(p);
    GridExtensionality(r.grid, g);
  }

  /**
   Piece.DropDown: nothing happens until `DropDelay` has passed since the
   last gravity step. Then the piece moves down if it can, the drop timer is
   set to `now`, and the lock timer is set to `now` only if the piece fell.
   */
  function DropDown(g: Grid, p: Piece, now: int): (r: Step)
    requires Sized(p)
    ensures now - p.dropGameTime < DropDelay ==> r == Step(p, g)
    ensures now - p.dropGameTime >= DropDelay ==>
      var fell := Fits(g, Footprint(p), p.bounds, p.currentPosition.Plus(Down), p.cells);
      && r.piece.dropGameTime == now
      && r.piece.lockGameTime == (if fell then now else p.lockGameTime)
      && r.piece.currentPosition == (if fell then p.currentPosition.Plus(Down) else p.currentPosition)
      && r.piece.nextPosition == p.currentPosition.Plus(Down)
      && r.grid == Move(g, p, Down).grid
    ensures r.piece.cells == p.cells && r.piece.shape == p.shape && r.piece.bounds == p.bounds
    ensures r.piece.rotationIndex == p.rotationIndex && r.piece.isLocked == p.isLocked
    ensures Shown(g, p) ==> Shown(r.grid, r.piece)
  {
    if now - p.dropGameTime >= DropDelay then
      var m := Move(g, p, Down);
      var p' := if m.ok then m.piece.(lockGameTime := now) else m.piece;
      Step(p'.(dropGameTime := now), m.grid)
    else
      Step(p, g)
  }

  /**
   Piece.TryToLockPiece: once `LockDelay` has passed since the lock timer was
   last set, the piece is locked and the timer restarts. The flag is never
   cleared here.
   */
  function TryToLockPiece(p: Piece, now: int): (r: Piece)
    ensures r.isLocked <==> p.isLocked || now - p.lockGameTime >= LockDelay
    ensures r.lockGameTime == if now - p.lockGameTime >= LockDelay then now else p.lockGameTime
    ensures r == p.(isLocked := r.isLocked, lockGameTime := r.lockGameTime)
  {
    if now - p.lockGameTime >= LockDelay then p.(isLocked := true, lockGameTime := now)
    else p
  }

  /** The keys read in one frame: A, D and S move; Q turns by +1 and E by -1. */
  datatype Input = Input(left: bool, right: bool, down: bool, turnPositive: bool, turnNegative: bool)

  /**
   The sideways half of Piece.HandleMoveInput: A moves left; otherwise D
   moves right. It moves one column exactly when the key for that direction
   was pressed and the column there is free for the piece.
   */
  function Sideways(g: Grid, p: Piece, input: Input): (r: Moved)
    requires Sized(p)
    ensures var dx := r.piece.currentPosition.x - p.currentPosition.x;
            && (dx == -1 <==> input.left && Fits(g, Footprint(p), p.bounds, p.currentPosition.Plus(Left), p.cells))
            && (dx == 1 <==> !input.left && input.right && Fits(g, Footprint(p), p.bounds, p.currentPosition.Plus(Right), p.cells))
            && (dx == 0 || dx == -1 || dx == 1)
    ensures r.piece.currentPosition.y == p.currentPosition.y
    ensures r.piece.cells == p.cells && r.piece.shape == p.shape && r.piece.bounds == p.bounds
    ensures r.piece.rotationIndex == p.rotationIndex && r.piece.isLocked == p.isLocked
    ensures r.piece.dropGameTime == p.dropGameTime && r.piece.lockGameTime == p.lockGameTime
    ensures Shown(g, p) ==> Shown(r.grid, r.piece)
    ensures forall q {:trigger GetTile(r.grid, q)} ::
      q !in Footprint(p) && q !in Footprint(r.piece) ==> GetTile(r.grid, q) == GetTile(g, q)
    ensures input.left ==> r == Move(g, p, Left)
    ensures !input.left && input.right ==> r == Move(g, p, Right)
    ensures !input.left && !input.right ==> r == Moved(false, p, g)
  {
    if input.left then Move(g, p, Left)
    else if input.right then Move(g, p, Right)
    else Moved(false, p, g)
  }

  /**
   Piece.HandleMoveInput: left wins over right; down is tried on its own in
   the same frame, after the sideways step. The piece moves one column left
   exactly when A was pressed in this frame and the column there is free, one
   column right exactly when D but not A was pressed and the column there is
   free, and one row down exactly when S was pressed and the row below the
   sideways step's position is free.
   */
  function HandleMoveInput(g: Grid, p: Piece, input: Input): (r: Step)
    requires Sized(p)
    ensures var dx := r.piece.currentPosition.x - p.currentPosition.x;
            && (dx == -1 <==> input.left && Fits(g, Footprint(p), p.bounds, p.currentPosition.Plus(Left), p.cells))
            && (dx == 1 <==> !input.left && input.right && Fits(g, Footprint(p), p.bounds, p.currentPosition.Plus(Right), p.cells))
            && (dx == 0 || dx == -1 || dx == 1)
    ensures var mid := Sideways(g, p, input);
            var dy := r.piece.currentPosition.y - p.currentPosition.y;
            && (dy == -1 <==> input.down && Fits(mid.grid, Footprint(mid.piece), p.bounds, mid.piece.currentPosition.Plus(Down), p.cells))
            && (dy == 0 || dy == -1)
    ensures r.piece.cells == p.cells && r.piece.shape == p.shape && r.piece.bounds == p.bounds
    ensures r.piece.rotationIndex == p.rotationIndex && r.piece.isLocked == p.isLocked
    ensures r.piece.dropGameTime == p.dropGameTime && r.piece.lockGameTime == p.lockGameTime
    ensures Shown(g, p) ==> Shown(r.grid, r.piece)
    ensures var mid := Sideways(g, p, input);
            forall q {:trigger GetTile(r.grid, q)} ::
              q !in Footprint(p) && q !in Footprint(mid.piece) && q !in Footprint(r.piece) ==> GetTile(r.grid, q) == GetTile(g, q)
    ensures var mid := Sideways(g, p, input);
            input.down ==> r == Step(Move(mid.grid, mid.piece, Down).piece, Move(mid.grid, mid.piece, Down).grid)
    ensures var mid := Sideways(g, p, input);
            !input.down ==> r == Step(mid.piece, mid.grid)
  {
    var s := Sideways(g, p, input);
    if input.down then var m := Move(s.grid, s.piece, Down); Step(m.piece, m.grid)
    else Step(s.piece, s.grid)
  }

  /** Pressing A and D in the same frame is the same as pressing A alone. */
  lemma LeftWinsOverRight(g: Grid, p: Piece, input: Input)
    requires Sized(p)
    requires input.left
    ensures HandleMoveInput(g, p, input.(right := true)) == HandleMoveInput(g, p, input.(right := false))
  {
  }

  /**
   Piece.HandleRotateInput: Q turns by +1 and wins over E, which turns by -1.
   The rotation index ends at its old value or at the value of the turn whose
   key was pressed in this frame.
   */
  function HandleRotateInput(g: Grid, p: Piece, input: Input): (r: Step)
    requires WellFormed(p)
    ensures WellFormed(r.piece) && r.piece.shape == p.shape && r.piece.bounds == p.bounds
    ensures r.piece.isLocked == p.isLocked
    ensures r.piece.dropGameTime == p.dropGameTime && r.piece.lockGameTime == p.lockGameTime
    ensures Shown(g, p) ==> Shown(r.grid, r.piece)
    ensures input.turnPositive ==> r == Step(Rotate(g, p, 1).piece, Rotate(g, p, 1).grid)
    ensures !input.turnPositive && input.turnNegative ==> r == Step(Rotate(g, p, -1).piece, Rotate(g, p, -1).grid)
    ensures !input.turnPositive && !input.turnNegative ==> r == Step(p, g)
  {
    if input.turnPositive then var m := Rotate(g, p, 1); Step(m.piece, m.grid)
    else if input.turnNegative then var m := Rotate(g, p, -1); Step(m.piece, m.grid)
    else Step(p, g)
  }

  /** Pressing Q and E in the same frame is the same as pressing Q alone. */
  lemma PositiveTurnWins(g: Grid, p: Piece, input: Input)
    requires WellFormed(p)
    requires input.turnPositive
    ensures HandleRotateInput(g, p, input.(turnNegative := true)) == HandleRotateInput(g, p, input.(turnNegative := false))
  {
  }
}

=== FILE: rows.dfy ===
/**
 The line-clear sweep seen row by row. The playfield is read as a sequence of
 twenty rows, bottom to top, each a sequence of ten squares; in that view a
 row shift removes one row and repeats the top row, and the whole sweep keeps
 the rows that were not full, in their order, and fills up with copies of
 the top row.
 */
module Rows {
  import opened Tetrominoes
  import opened Tilemaps
  import opened Boards

  type Row = seq<Option<Tile>>

  /** Row `y` of the playfield, read from the left column to the right one. */
  function RowAt(g: Grid, y: int): (r: Row)
    ensures |r| == BoardSize.x
    ensures forall i :: 0 <= i < BoardSize.x ==> r[i] == GetTile(g, Vec(Bounds.xMin + i, y))
  {
    seq(BoardSize.x, i => GetTile(g, Vec(Bounds.xMin + i, y)))
  }

  /** The rows of the playfield, from the bottom row to the top row. */
  function RowsOf(g: Grid): (r: seq<Row>)
    ensures |r| == BoardSize.y
    ensures forall j :: 0 <= j < BoardSize.y ==> r[j] == RowAt(g, Bounds.yMin + j)
  {
    seq(BoardSize.y, j => RowAt(g, Bounds.yMin + j))
  }

  /** Every square of the row holds a tile. */
  predicate Full(row: Row) {
    forall i :: 0 <= i < |row| ==> row[i].Some?
  }

  /** A row with no tile in it. */
  function EmptyRow(): (r: Row)
    ensures |r| == BoardSize.x && forall i :: 0 <= i < |r| ==> r[i] == None
  {
    seq(BoardSize.x, i => None)
  }

  /** The rows that are not full, in their original order. */
  function KeepOpen(rows: seq<Row>): (r: seq<Row>)
    ensures |r| <= |rows|
  {
    if |rows| == 0 then []
    else (if Full(rows[0]) then [] else [rows[0]]) + KeepOpen(rows[1..])
  }

  /** The filter keeps only rows of its input, and none of them full; every open row of the input is kept. */
  lemma {:induction false} KeepOpenMembers(rows: seq<Row>)
    ensures forall x :: x in KeepOpen(rows) <==> x in rows && !Full(x)
  {
    if |rows| > 0 {
      KeepOpenMembers(rows[1..]);
      assert forall x :: x in rows <==> x == rows[0] || x in rows[1..];
    }
  }

  /** `n` copies of one row. */
  function Repeat(row: Row, n: nat): (r: seq<Row>)
    ensures |r| == n && forall i :: 0 <= i < n ==> r[i] == row
  {
    seq(n, i => row)
  }

  /** Filtering distributes over concatenation. */
  lemma {:induction false} KeepOpenAppend(a: seq<Row>, b: seq<Row>)
    ensures KeepOpen(a + b) == KeepOpen(a) + KeepOpen(b)
  {
    if |a| == 0 {
      assert a + b == b;
    } else {
      var head := if Full(a[0]) then [] else [a[0]];
      assert (a + b)[0] == a[0];
      assert (a + b)[1..] == a[1..] + b;
      KeepOpenAppend(a[1..], b);
      assert head + (KeepOpen(a[1..]) + KeepOpen(b)) == (head + KeepOpen(a[1..])) + KeepOpen(b);
    }
  }

  /** Board.IsLineFull agrees with fullness of the row read as a sequence. */
  lemma IsLineFullIsFull(g: Grid, y: int)
    ensures IsLineFull(g, y) == Full(RowAt(g, y))
  {
    var row := RowAt(g, y);
    IsLineFullComplete(g, y);
    forall col | Bounds.xMin <= col < Bounds.xMax()
      ensures HasTile(g, Vec(col, y)) == row[col - Bounds.xMin].Some?
    {
    }
    forall i | 0 <= i < |row|
      ensures row[i].Some? == HasTile(g, Vec(Bounds.xMin + i, y))
    {
    }
  }

  /** A row after a shift from `row`: the row above it when it lies in the shifted range, itself otherwise. */
  lemma ShiftedRowAt(r: Grid, g: Grid, row: int, y: int)
    requires Shifted(r, g, row)
    ensures RowAt(r, y) == if row <= y < TopRow then RowAt(g, y + 1) else RowAt(g, y)
  {
    var expected := if row <= y < TopRow then RowAt(g, y + 1) else RowAt(g, y);
    forall i | 0 <= i < BoardSize.x
      ensures RowAt(r, y)[i] == expected[i]
    {
      assert GetTile(r, Vec(Bounds.xMin + i, y)) ==
        if row <= y < TopRow then GetTile(g, Vec(Bounds.xMin + i, y + 1)) else GetTile(g, Vec(Bounds.xMin + i, y));
    }
  }

  /** Board.ClearLine in the row view: the cleared row leaves the sequence and the top row is repeated. */
  lemma ShiftedRows(r: Grid, g: Grid, row: int)
    requires Shifted(r, g, row)
    requires Bounds.yMin <= row < TopRow
    ensures var s := RowsOf(g);
            var j := row - Bounds.yMin;
            RowsOf(r) == s[..j] + s[j + 1..] + [s[BoardSize.y - 1]]
  {
    var s := RowsOf(g);
    var j := row - Bounds.yMin;
    var expected := s[..j] + s[j + 1..] + [s[BoardSize.y - 1]];
    forall k | 0 <= k < BoardSize.y
      ensures RowsOf(r)[k] == expected[k]
    {
      ShiftedRowAt(r, g, row, Bounds.yMin + k);
      if k < j {
        assert expected[k] == s[k];
      } else if k < BoardSize.y - 1 {
        assert expected[k] == s[k + 1];
      } else {
        assert expected[k] == s[BoardSize.y - 1];
      }
    }
  }

  /** The row-view invariant of the sweep after `k` rows from the bottom have been scanned. */
  function Swept(s: seq<Row>, k: nat): seq<Row>
    requires 0 < |s| && k <= |s|
  {
    var kept := KeepOpen(s[..k]);
    kept + s[k..] + Repeat(s[|s| - 1], k - |kept|)
  }

  /** Filtering a prefix one row longer adds that row exactly when it is not full. */
  lemma KeepOpenSnoc(s: seq<Row>, j: nat)
    requires j < |s|
    ensures KeepOpen(s[..j + 1]) == KeepOpen(s[..j]) + (if Full(s[j]) then [] else [s[j]])
  {
    assert s[..j + 1] == s[..j] + [s[j]];
    KeepOpenAppend(s[..j], [s[j]]);
    assert [s[j]][1..] == [];
  }

  /** One more copy in front of `n` copies is `n + 1` copies. */
  lemma RepeatCons(row: Row, n: nat)
    ensures [row] + Repeat(row, n) == Repeat(row, n + 1)
  {
  }

  /** One scan step over a full row: the row leaves and the top row is repeated once more. */
  lemma SweptStepFull(s: seq<Row>, s': seq<Row>, j: nat)
    requires j < |s| - 1
    requires Full(s[j])
    requires s' == s[..j] + s[j + 1..] + [s[|s| - 1]]
    ensures Swept(s', j) == Swept(s, j + 1)
  {
    var top := s[|s| - 1];
    KeepOpenSnoc(s, j);
    assert s'[..j] == s[..j];
    assert s'[j..] == s[j + 1..] + [top];
    RepeatCons(top, j - |KeepOpen(s[..j])|);
  }

  /** One scan step over a row that is not full: the row is kept where it is. */
  lemma SweptStepOpen(s: seq<Row>, j: nat)
    requires j < |s| - 1
    requires !Full(s[j])
    ensures Swept(s, j) == Swept(s, j + 1)
  {
    KeepOpenSnoc(s, j);
    assert s[j..] == [s[j]] + s[j + 1..];
  }

  /** The scan has not started: every row is where it was. */
  lemma SweptNone(s: seq<Row>)
    requires 0 < |s|
    ensures Swept(s, 0) == s
  {
    assert s[..0] == [] && s[0..] == s;
  }

  /** The full scan leaves the open rows below the top followed by copies of the top row. */
  lemma SweptAll(s: seq<Row>)
    requires 0 < |s|
    ensures var kept := KeepOpen(s[..|s| - 1]);
            Swept(s, |s| - 1) == kept + Repeat(s[|s| - 1], |s| - |kept|)
  {
    var h := |s| - 1;
    var top := s[h];
    var kept := KeepOpen(s[..h]);
    var n := h - |kept|;
    assert s[h..] == [top];
    assert Swept(s, h) == kept + [top] + Repeat(top, n);
    assert kept + [top] + Repeat(top, n) == kept + ([top] + Repeat(top, n));
    RepeatCons(top, n);
  }

  /** With the top row empty, the full scan leaves the open rows followed by empty rows. */
  lemma SweptEmptyTop(s: seq<Row>)
    requires 0 < |s|
    requires s[|s| - 1] == EmptyRow()
    ensures var kept := KeepOpen(s);
            Swept(s, |s| - 1) == kept + Repeat(EmptyRow(), |s| - |kept|)
  {
    var h := |s| - 1;
    var top := s[h];
    assert !Full(top) by {
      assert top[0] == None;
    }
    SweptAll(s);
    assert s[..h + 1] == s;
    KeepOpenSnoc(s, h);
    RepeatCons(top, h - |KeepOpen(s[..h])|);
  }

  /**
   The sweep's loop invariant in the row view: after the scan from `row`
   down, the rows up to `row` have become the ones of them that were not
   full, the rows above follow unchanged, and copies of the top row fill the
   places the cleared rows left.
   */
  lemma {:induction false} SweepFromRows(g: Grid, row: int)
    requires Bounds.yMin - 1 <= row < TopRow
    ensures RowsOf(SweepFrom(g, row)) == Swept(RowsOf(g), row - Bounds.yMin + 1)
    decreases row - Bounds.yMin + 1
  {
    if row < Bounds.yMin {
      SweptNone(RowsOf(g));
    } else {
      var g' := if IsLineFull(g, row) then ClearLine(g, row) else g;
      assert (row - 1) - Bounds.yMin + 1 == row - Bounds.yMin;
      SweepFromRows(g', row - 1);
      SweepRowStep(g, row);
    }
  }

  /** One pass of the row loop in the row view: the invariant moves down one row. */
  lemma SweepRowStep(g: Grid, row: int)
    requires Bounds.yMin <= row < TopRow
    ensures var g' := if IsLineFull(g, row) then ClearLine(g, row) else g;
            Swept(RowsOf(g'), row - Bounds.yMin) == Swept(RowsOf(g), row - Bounds.yMin + 1)
  {
    var j := row - Bounds.yMin;
    RowsFullness(g, j);
    if IsLineFull(g, row) {
      var g' := ClearLine(g, row);
      ClearLineShifts(g, row);
      ShiftedRows(g', g, row);
      SweptStepFull(RowsOf(g), RowsOf(g'), j);
    } else {
      SweptStepOpen(RowsOf(g), j);
    }
  }

  /** The j-th row of the sequence is full exactly when Board.IsLineFull holds of that row. */
  lemma RowsFullness(g: Grid, j: int)
    requires 0 <= j < BoardSize.y
    ensures Full(RowsOf(g)[j]) == IsLineFull(g, Bounds.yMin + j)
  {
    IsLineFullIsFull(g, Bounds.yMin + j);
  }

  /**
   Board.UpdateBoard's sweep in the row view: the rows below the top that
   were not full, in their order, followed by copies of the top row.
   */
  lemma SweepRows(g: Grid)
    ensures var s := RowsOf(g);
            var kept := KeepOpen(s[..BoardSize.y - 1]);
            RowsOf(Sweep(g)) == kept + Repeat(s[BoardSize.y - 1], BoardSize.y - |kept|)
  {
    SweepFromRows(g, TopRow - 1);
    SweptAll(RowsOf(g));
  }

  /**
   When the top row is empty, which is the case whenever the game goes on
   after a piece locks, the swept rows are exactly the rows that were not
   full, in their order, followed by empty rows.
   */
  lemma SweepKeepsOpenRowsInOrder(g: Grid)
    requires !TopRowOccupied(g)
    ensures var kept := KeepOpen(RowsOf(g));
            RowsOf(Sweep(g)) == kept + Repeat(EmptyRow(), BoardSize.y - |kept|)
  {
    var s := RowsOf(g);
    TopRowEmpty(g);
    SweepFromRows(g, TopRow - 1);
    assert RowsOf(Sweep(g)) == Swept(s, |s| - 1);
    SweptEmptyTop(s);
  }

  /** A top row with no tile reads as the empty row. */
  lemma TopRowEmpty(g: Grid)
    requires !TopRowOccupied(g)
    ensures RowsOf(g)[BoardSize.y - 1] == EmptyRow()
  {
    var top := RowAt(g, TopRow);
    forall i | 0 <= i < BoardSize.x
      ensures top[i] == None
    {
      assert !HasTile(g, Vec(Bounds.xMin + i, TopRow));
    }
  }
}

=== FILE: tetrominoes.dfy ===
/**
 Shape data shared by every piece: the seven tetromino kinds, their cell
 offsets and wall-kick tables, the integer vector and rectangle types the
 engine computes with, and the two helpers from the geometry table that the
 engine relies on (the wrap-around of an index and the quarter-turn matrix).
 */
module Tetrominoes {

  /** An integer grid vector (Unity's Vector2Int; the z component of a Vector3Int is always 0). */
  datatype Vec = Vec(x: int, y: int) {
    function Plus(o: Vec): Vec {
      Vec(x + o.x, y + o.y)
    }
  }

  const Left := Vec(-1, 0)
  const Right := Vec(1, 0)
  const Down := Vec(0, -1)

  /** An integer rectangle given by its corner and size (Unity's RectInt). */
  datatype Rect = Rect(xMin: int, yMin: int, width: int, height: int) {
    function xMax(): int {
      xMin + width
    }

    function yMax(): int {
      yMin + height
    }

    /** Half-open containment: the maximum column and row are outside. */
    predicate Contains(p: Vec) {
      xMin <= p.x < xMax() && yMin <= p.y < yMax()
    }
  }

  datatype Tetromino = I | J | L | O | S | T | Z

  /** The identity of a tile asset; the grid stores these as occupancy markers. */
  datatype Tile = Tile(id: nat)

  /**
   The per-shape data a piece is initialised from: its tile, its kind, the
   cell offsets around the pivot and the wall-kick table (one row of
   candidate translations per rotation transition).
   */
  datatype ShapeData = ShapeData(tile: Tile, tetromino: Tetromino, cells: seq<Vec>, wallKicks: seq<seq<Vec>>)

  /** What the geometry table guarantees of every shape: four cells and a non-empty kick table. */
  predicate ValidShape(s: ShapeData) {
    |s.cells| == 4 && |s.wallKicks| > 0
  }

  /** The integer `value` brought into [lo, hi) by adding a multiple of the range's width. */
  function Wrap(value: int, lo: int, hi: int): (r: int)
    requires lo < hi
    ensures lo <= r < hi
    ensures (r - value) % (hi - lo) == 0
  {
    var n := hi - lo;
    var q := (value - lo) / n;
    assert lo + (value - lo) % n - value == -q * n;
    MultipleMod(-q, n);
    lo + (value - lo) % n
  }

  /** A multiple of n leaves no remainder. */
  lemma MultipleMod(k: int, n: int)
    requires n > 0
    ensures (k * n) % n == 0
  {
    var x := k * n;
    var j := k - x / n;
    assert x % n == n * j;
    ScaleBound(n, j);
  }

  /** A non-zero multiple of a positive n is at least n away from zero. */
  lemma ScaleBound(n: int, j: int)
    requires n > 0
    ensures j >= 1 ==> n * j >= n
    ensures j <= -1 ==> n * j <= -n
  {
    if j >= 1 {
      assert n * j == n + n * (j - 1);
    } else if j <= -1 {
      assert n * j == -n + n * (j + 1);
    }
  }

  /** Wrap is the identity on values already in range. */
  lemma WrapInRange(value: int, lo: int, hi: int)
    requires lo <= value < hi
    ensures Wrap(value, lo, hi) == value
  {
  }

  /** The quarter-turn matrix {0, 1, -1, 0}, read row by row. */
  const RotationMatrix: seq<int> := [0, 1, -1, 0]

  /** The ceiling of n / 2. */
  function CeilHalf(n: int): (r: int)
    ensures 2 * r - 1 <= n <= 2 * r
  {
    (n + 1) / 2
  }

  /** True of the two shapes rotated about a point half a cell off their pivot. */
  predicate OffCentre(kind: Tetromino) {
    kind == I || kind == O
  }

  /**
   One cell offset multiplied by the rotation matrix scaled by `direction`.
   For I and O the offset is first moved by (-1/2, -1/2) and the product is
   rounded up; the half is not added back. The computation is carried out on
   doubled coordinates so that it stays exact. For the other shapes the
   product is already an integer, so rounding leaves it alone. A quarter
   turn reduces to one of four integer maps.
   */
  function RotateCell(kind: Tetromino, direction: int, c: Vec): (r: Vec)
    ensures OffCentre(kind) && direction == 1 ==> r == Vec(c.y, 1 - c.x)
    ensures OffCentre(kind) && direction == -1 ==> r == Vec(1 - c.y, c.x)
    ensures !OffCentre(kind) && direction == 1 ==> r == Vec(c.y, -c.x)
    ensures !OffCentre(kind) && direction == -1 ==> r == Vec(-c.y, c.x)
  {
    var m := RotationMatrix;
    if OffCentre(kind) then
      var hx := 2 * c.x - 1;
      var hy := 2 * c.y - 1;
      assert CeilHalf(hy) == c.y && CeilHalf(-hx) == 1 - c.x;
      assert CeilHalf(-hy) == 1 - c.y && CeilHalf(hx) == c.x;
      Vec(CeilHalf(hx * m[0] * direction + hy * m[1] * direction),
          CeilHalf(hx * m[2] * direction + hy * m[3] * direction))
    else
      Vec(c.x * m[0] * direction + c.y * m[1] * direction,
          c.x * m[2] * direction + c.y * m[3] * direction)
  }

  /** Turning one way and then the other restores the cell. */
  lemma RotateCellInverse(kind: Tetromino, direction: int, c: Vec)
    requires direction == 1 || direction == -1
    ensures RotateCell(kind, -direction, RotateCell(kind, direction, c)) == c
  {
  }

  /** Four quarter turns in the same direction restore the cell. */
  lemma RotateCellFourTurns(kind: Tetromino, direction: int, c: Vec)
    requires direction == 1 || direction == -1
    ensures RotateCell(kind, direction, RotateCell(kind, direction, RotateCell(kind, direction, RotateCell(kind, direction, c)))) == c
  {
  }

  /** Every offset of a piece turned by the rotation matrix. */
  function RotateCells(kind: Tetromino, direction: int, cells: seq<Vec>): (r: seq<Vec>)
    ensures |r| == |cells|
    ensures forall i :: 0 <= i < |cells| ==> r[i] == RotateCell(kind, direction, cells[i])
  {
    seq(|cells|, i requires 0 <= i < |cells| => RotateCell(kind, direction, cells[i]))
  }

  /** Turning all cells one way and then the other restores them. */
  lemma RotateCellsInverse(kind: Tetromino, direction: int, cells: seq<Vec>)
    requires direction == 1 || direction == -1
    ensures RotateCells(kind, -direction, RotateCells(kind, direction, cells)) == cells
  {
    var r := RotateCells(kind, -direction, RotateCells(kind, direction, cells));
    forall i | 0 <= i < |cells|
      ensures r[i] == cells[i]
    {
      RotateCellInverse(kind, direction, cells[i]);
    }
  }

  /** Four turns of all cells in the same direction restore them. */
  lemma RotateCellsFourTurns(kind: Tetromino, direction: int, cells: seq<Vec>)
    requires direction == 1 || direction == -1
    ensures RotateCells(kind, direction, RotateCells(kind, direction, RotateCells(kind, direction, RotateCells(kind, direction, cells)))) == cells
  {
    var r := RotateCells(kind, direction, RotateCells(kind, direction, RotateCells(kind, direction, RotateCells(kind, direction, cells))));
    forall i | 0 <= i < |cells|
      ensures r[i] == cells[i]
    {
      RotateCellFourTurns(kind, direction, cells[i]);
    }
  }

  /** The rotation index after turning `direction` from `index`, kept in [0, 4). */
  function NextRotationIndex(index: int, direction: int): (r: int)
    ensures 0 <= r < 4
    ensures (r - index - direction) % 4 == 0
  {
    Wrap(index + direction, 0, 4)
  }

  /** One quarter turn moves the rotation index one step round the cycle 0, 1, 2, 3. */
  lemma NextRotationIndexStep(index: int, direction: int)
    requires 0 <= index < 4
    requires direction == 1 || direction == -1
    ensures NextRotationIndex(index, direction) ==
      if index + direction == 4 then 0 else if index + direction == -1 then 3 else index + direction
  {
    var v := index + direction;
    if v == -1 {
      assert Wrap(-1, 0, 4) == 3;
    } else if v == 4 {
      assert Wrap(4, 0, 4) == 0;
    } else {
      WrapInRange(v, 0, 4);
    }
  }

  /** Four quarter turns in one direction bring the rotation index back. */
  lemma RotationIndexFourTurns(index: int, direction: int)
    requires 0 <= index < 4
    requires direction == 1 || direction == -1
    ensures NextRotationIndex(NextRotationIndex(NextRotationIndex(NextRotationIndex(index, direction), direction), direction), direction) == index
  {
    var i1 := NextRotationIndex(index, direction);
    var i2 := NextRotationIndex(i1, direction);
    var i3 := NextRotationIndex(i2, direction);
    NextRotationIndexStep(index, direction);
    NextRotationIndexStep(i1, direction);
    NextRotationIndexStep(i2, direction);
    NextRotationIndexStep(i3, direction);
  }

  /** A turn followed by the opposite turn brings the rotation index back. */
  lemma RotationIndexInverse(index: int, direction: int)
    requires 0 <= index < 4
    requires direction == 1 || direction == -1
    ensures NextRotationIndex(NextRotationIndex(index, direction), -direction) == index
  {
    NextRotationIndexStep(index, direction);
    NextRotationIndexStep(NextRotationIndex(index, direction), -direction);
  }

  /**
   The row of the kick table used when turning `direction` into orientation
   `rotationIndex`: twice the index, one less for a negative turn, wrapped
   into the table.
   */
  function WallKickIndex(rotationIndex: int, direction: int, rows: int): (r: int)
    requires rows > 0
    ensures 0 <= r < rows
    ensures (r - (2 * rotationIndex - (if direction < 0 then 1 else 0))) % rows == 0
  {
    var index := rotationIndex * 2;
    var index' := if direction < 0 then index - 1 else index;
    Wrap(index', 0, rows)
  }

  /** With the usual eight-row table every transition gets its own row: 2r for a positive turn, 2r - 1 (wrapping to 7) for a negative one. */
  lemma WallKickIndexEightRows(rotationIndex: int, direction: int)
    requires 0 <= rotationIndex < 4
    ensures direction >= 0 ==> WallKickIndex(rotationIndex, direction, 8) == 2 * rotationIndex
    ensures direction < 0 && rotationIndex > 0 ==> WallKickIndex(rotationIndex, direction, 8) == 2 * rotationIndex - 1
    ensures direction < 0 && rotationIndex == 0 ==> WallKickIndex(rotationIndex, direction, 8) == 7
  {
  }
}

=== FILE: tilemaps.dfy ===
/**
 The tilemap as the engine uses it: a sparse map from grid cell to tile. It is
 both the picture and the occupancy store; a cell is occupied exactly when a
 tile is set there, and setting "no tile" removes the entry.
 */
module Tilemaps {
  import opened Tetrominoes

  datatype Option<T> = None | Some(value: T)

  type Grid = map<Vec, Tile>

  /** The tile at `p`, if any (Tilemap.GetTile). */
  function GetTile(g: Grid, p: Vec): Option<Tile> {
    if p in g then Some(g[p]) else None
  }

  /** Tilemap.HasTile. */
  predicate HasTile(g: Grid, p: Vec) {
    p in g
  }

  /** Two grids that agree on every cell are the same grid. */
  lemma GridExtensionality(a: Grid, b: Grid)
    requires forall p :: GetTile(a, p) == GetTile(b, p)
    ensures a == b
  {
    assert forall p :: p in a <==> GetTile(a, p).Some?;
    assert a.Keys == b.Keys;
    forall p | p in a
      ensures a[p] == b[p]
    {
      assert GetTile(a, p) == GetTile(b, p);
    }
  }

  /** Tilemap.SetTile: puts `t` at `p`; `None` clears the cell. */
  function SetTile(g: Grid, p: Vec, t: Option<Tile>): (r: Grid)
    ensures GetTile(r, p) == t
    ensures forall q {:trigger GetTile(r, q)} :: q != p ==> GetTile(r, q) == GetTile(g, q)
  {
    match t
    case Some(tile) => g[p := tile]
    case None => g - {p}
  }

  /** Sets `t` at every cell of `cells` in turn (Piece.Show's loop). */
  function Paint(g: Grid, cells: seq<Vec>, t: Tile): (r: Grid)
    ensures forall q {:trigger GetTile(r, q)} :: GetTile(r, q) == if q in cells then Some(t) else GetTile(g, q)
    decreases |cells|
  {
    if |cells| == 0 then g
    else
      var r := Paint(SetTile(g, cells[0], Some(t)), cells[1..], t);
      assert forall q :: q in cells <==> q == cells[0] || q in cells[1..];
      r
  }

  /** Clears every cell of `cells` in turn (Piece.Clear's loop). */
  function Erase(g: Grid, cells: seq<Vec>): (r: Grid)
    ensures forall q {:trigger GetTile(r, q)} :: GetTile(r, q) == if q in cells then None else GetTile(g, q)
    decreases |cells|
  {
    if |cells| == 0 then g
    else
      var r := Erase(SetTile(g, cells[0], None), cells[1..]);
      assert forall q :: q in cells <==> q == cells[0] || q in cells[1..];
      r
  }
}
